=== FILE: README.md ===
# Invoice generator — a Dafny model of its core

The repository is a small invoice generator for the DSSV ELS ice-skating association, with two
front ends over the same logic:

- a desktop window (`main.py`, an `InvoiceManager` plus an `InvoiceGUI`);
- a web page (`webapp.py`, a script whose state lives in the session).

Both keep a ledger of invoice lines and a persisted counter of the next invoice number. Both
render an invoice document in Dutch or English and write it as `{number}_{recipient}.pdf`,
together with a `.csv` export of the lines. They advance the number only once both files are
written.

This project models that core as pure functions over immutable values:

| file | module | what it models |
|---|---|---|
| `ledger.dfy` | `Ledger` | the ledger: adding, removing and clearing lines, the total, the demonstration data |
| `filename.dfy` | `Filename` | the desktop file-name sanitiser and the web one |
| `decimal.dfy` | `Decimal` | `str()` of the invoice number |
| `emission.dfy` | `Emission` | the output file names and the I/O outcomes of an emission |
| `locale.dfy` | `Locale` | the two label tables of each front end, and the language selector |
| `document.dfy` | `Document` | what a rendered invoice contains, and the table export |
| `settings.dfy` | `Settings` | the settings file: defaults, load and save |
| `desktop.dfy` | `Desktop` | the desktop callbacks as state transitions |
| `web.dfy` | `Web` | the web buttons as transitions of the session |
| `wrappers.dfy` | `Wrappers` | `Option` and `Result` |

The main results are these.

- **The total is the sum of the prices.** If every line's amount was fixed when the line was
  added, the document's total is the sum of quantity × price. This holds after any sequence of
  additions, removals and clears.
- **The sanitiser is safe.** The desktop sanitiser never returns an empty name. Its result has
  only file-name characters and never starts or ends with a separator. It keeps every letter
  and digit of the input, and it is idempotent.
- **No emission overwrites another.** In both front ends the invoice number advances exactly
  when an emission completes. So across any sequence of interactions, the i-th emission carries
  the starting number plus i, and no two emissions share a PDF or CSV file name.
- **Refusal and failure never advance the number.** A refused request changes nothing, in
  either front end. An invoice emission that fails on I/O or rendering leaves the invoice number
  and the ledger as they were, with two side effects:
  - on the desktop, once the output directory exists, the form's description has already been
    copied into the manager;
  - on the web, when only the CSV write fails, the download offer for the written PDF is shown.

  The desktop test-PDF emission loads the demonstration lines before anything can fail, so a
  failure leaves those lines in place. It still leaves the number unchanged.

I/O is replaced by parameters:

- Every file-system step (creating the directory, writing the PDF with its fonts, writing the
  CSV) is a boolean in `Emission.Io`.
- The clock is a day number `today`.
- The settings file is an `Option<Settings.Stored>`: `None` when the file does not exist.

## Model

| member | source | states |
|---|---|---|
| Ledger.AddLine | main.py:66-74 | the new line is appended with amount quantity × price, earlier lines are unchanged, and the returned index is that of the new line |
| Ledger.RemoveLine | main.py:76-78 | an out-of-range index changes nothing; otherwise exactly the line at the index is removed and the others keep their order |
| Ledger.ClearLines | main.py:80-81 | the ledger is empty afterwards |
| Ledger.TotalEmpty | main.py:150 | the total of an empty ledger is 0 |
| Ledger.TotalAppend | main.py:150-160 | the running total over a concatenation is the sum of the two totals |
| Ledger.TotalAfterAdd | main.py:66-74 | adding a line raises the total by exactly quantity × price |
| Ledger.TotalAfterRemove | main.py:76-78 | removing an in-range line lowers the total by exactly that line's amount |
| Ledger.TotalIsPriceSum | main.py:150-160 | when every amount was fixed at insertion, the render loop's total equals the independent sum of quantity × price |
| Ledger.EditsKeepTotalHonest | main.py:66-81 | after any sequence of add, remove and clear, every amount is still quantity × price and the total is the sum of prices |
| Ledger.GenerateTestData | main.py:212-223 | the ledger is replaced by the four demonstration lines with amounts 25.00, 7.50, 45.00 and 15.00, and "Test Customer" is returned |
| Ledger.TestDataTotal | main.py:212-223 | the demonstration ledger totals 92.50 whatever it replaced |
| Filename.ReplaceSpaces | main.py:292 | every single space becomes one underscore and nothing else changes |
| Filename.RemoveDisallowed | main.py:293 | only letters, digits, `_`, `.` and `-` remain, and a string of those alone is unchanged |
| Filename.RemoveDisallowedAppend | main.py:293 | deletion works character by character: the result for a concatenation is the concatenation of the results |
| Filename.RemoveDisallowedOne | main.py:293 | a single character is kept exactly when it is in the class `[\w._-]`, and deleted otherwise |
| Filename.StripLeft | main.py:294 | the result is a suffix, what was removed is separators only, and the result does not start with a separator |
| Filename.StripRight | main.py:294 | the result is a prefix, what was removed is separators only, and the result does not end with a separator |
| Filename.StripSeparators | main.py:294 | neither end of the result is a separator, the result is empty exactly when the input was all separators, and the allowed character set is kept |
| Filename.StripIsInfix | main.py:294 | the strip is the infix of the input that starts right after its leading separators |
| Filename.StripDropsOnlySeparators | main.py:294 | everything the strip drops, before and after that infix, is a separator |
| Filename.Sanitize | main.py:282-301 | empty input gives "untitled"; the result is never empty, has only allowed characters and neither starts nor ends with a separator |
| Filename.CleanKeepsAlphanumerics | main.py:292-294 | the three cleaning steps keep every letter and digit of the input, in order |
| Filename.SanitizeKeepsAlphanumerics | main.py:292-301 | a name with any letter or digit is sanitised to the cleaned text itself, which holds exactly the input's letters and digits |
| Filename.SanitizeFallsBack | main.py:296-299 | a non-empty name without letters or digits gives "sanitized_recipient" |
| Filename.SanitizeKeepsCleanName | main.py:289-301 | a name whose only disallowed characters are spaces, and which neither starts nor ends with a space or separator, becomes itself with each space turned into `_`; inner separators survive |
| Filename.SanitizeTestCustomerExample | main.py:423 | "Test Customer" gives "Test_Customer" |
| Filename.SanitizeDotsExample | main.py:296-299 | the name "..." gives "sanitized_recipient" |
| Filename.SanitizeIdempotent | main.py:282-301 | sanitising a sanitised name changes nothing |
| Filename.SanitizedNamesArePathComponents | main.py:282-301 | neither sanitiser's output contains `/`, `\` or a space, and the desktop's never starts with `.` |
| Filename.SafeName | webapp.py:268 | the web name has the input's length, keeps every allowed character in place and turns each other character into `_` |
| Filename.SafeNameIdempotent | webapp.py:268 | the web sanitiser is idempotent, and a name is left unchanged exactly when all its characters are allowed |
| Filename.AlnumsSafeName | webapp.py:268 | the web sanitiser keeps every letter and digit, in order |
| Filename.FrontEndsAgreeOnContent | webapp.py:268 | for a name with a letter or digit, both sanitisers keep the same letters and digits |
| Decimal.NatToDecimal | main.py:379-380 | the decimal text of a natural number is non-empty, all digits, with no leading zero |
| Decimal.ParseNatToDecimal | main.py:379-380 | reading the digits back gives the number |
| Decimal.IntToDecimal | main.py:379-380 | the text of an integer is non-empty, starts with `-` exactly for negatives, and contains no `_` |
| Decimal.NatToDecimalInjective | main.py:379-380 | distinct natural numbers have distinct digit strings |
| Decimal.IntToDecimalInjective | main.py:379-380 | distinct invoice numbers have distinct texts |
| Emission.StemInjective | main.py:379-380 | the stem `{n}_{safe}` determines both the number and the sanitised name |
| Emission.DistinctNumbersDistinctFiles | main.py:379-380 | different invoice numbers give different PDF names and different CSV names, and no PDF name equals any CSV name |
| Emission.NumberedFilesDistinct | main.py:379-380 | emissions numbered consecutively write pairwise distinct PDF and CSV names |
| Locale.DutchText | main.py:17-29 | every Dutch label is non-empty |
| Locale.DutchPriceLabels | main.py:25 | the Dutch price label is "Stukprijs" on the desktop and "Prijs" on the web |
| Locale.EnglishText | main.py:30-42 | every English label is non-empty |
| Locale.Translations | main.py:91 | a table exists exactly for "nl" and "en", and each has every key with a non-empty text |
| Locale.LanguagesShareKeys | main.py:16-43 | both languages define the same key set |
| Locale.FrontEndsShareLabels | webapp.py:30-57 | the two front ends' tables agree on every entry except the Dutch price label |
| Locale.LanguageOfChoice | main.py:312-314 | the selector always yields a known language, and "nl" exactly for "Dutch" |
| Settings.Save | main.py:57-64 | every field is written |
| Settings.Load | main.py:46-55 | an absent file keeps the current settings and writes them out; a present file supplies each key, with 1, 14, "nl" and the current description for missing ones |
| Settings.LoadSaveRoundTrip | main.py:46-64 | loading what was saved restores exactly the saved settings |
| Settings.LoadIdempotent | main.py:46-55 | a second load right after the first changes nothing |
| Document.TableRows | main.py:150-160 | row i shows line i, and is shaded exactly when i is odd |
| Document.Render | main.py:83-189 | rendering fails exactly for an unknown language; otherwise the title falls back to the table's title, the due day is the payment term after the issue day, and the rows and total follow the ledger |
| Document.OrganisationBlocks | webapp.py:79-85 | both front ends list the same five organisation entries, and the desktop copy also has the name |
| Document.TitleNeverEmpty | main.py:102 | the title of a rendered invoice is never empty |
| Document.LocaleSwitch | main.py:91-102 | Dutch and English renderings differ only in labels and, without an invoice name, the title |
| Document.FrontEndsRenderAlike | webapp.py:59-160 | the web rendering has the desktop's title, numbers, days, rows, shading, total and description; only the label table and the organisation block differ |
| Document.Export | main.py:192-197 | one row per line, each carrying the invoice number, the customer and the date |
| Document.ExportRoundTrip | main.py:192-197 | reading the export back gives the ledger, and each row's amount is its quantity × price |
| Desktop.Start | main.py:10-44 | a new manager has an empty ledger and the settings loaded over the defaults |
| Desktop.AddLineCallback | main.py:320-332 | a line is added only with a description and non-zero quantity and price, and then the line inputs are reset; otherwise nothing changes |
| Desktop.DeleteLineCallback | main.py:350-352 | an out-of-range index changes nothing; otherwise exactly the line at the index goes, the others keep their order, and nothing but the ledger changes |
| Desktop.ClearAllCallback | main.py:396-404 | the ledger, the recipient, the invoice name and the line inputs are cleared, and the invoice description is kept |
| Desktop.GenerateTestDataCallback | main.py:410-413 | the ledger is replaced by exactly the four demonstration lines (totalling 92.50) and the recipient becomes "Test Customer"; the rest of the form and the settings are untouched |
| Desktop.UpdateLanguage | main.py:312-314 | the language is set from the selector and the settings are saved |
| Desktop.UpdatePaymentTerms | main.py:316-318 | the payment term is set and the settings are saved |
| Desktop.GenerateInvoiceCallback | main.py:354-394 | refuses without a recipient, description or line; the number changes exactly on a completed emission and then by one; failures leave number and ledger alone; success names both files `{n}_{Sanitize(recipient)}`, emits exactly the document rendered with the form's invoice name as title and its description, saves the settings with only the description and the number changed, and clears the ledger and the line inputs |
| Desktop.GenerateTestPdfCallback | main.py:415-445 | emits the demonstration invoice, titled "Test Invoice", under `{n}_{safe}_TEST`; emits exactly the document rendered for "Test Customer" with the manager's stored description and the CSV export of the demonstration lines; advances the number only on completion, saves settings that differ only in the number, and then clears recipient, invoice name and line inputs, keeping the invoice description; a failure leaves the demonstration lines, "Test Customer" and "Test Invoice" in place and nothing else changed |
| Desktop.RunCountsEmissions | main.py:387-390 | over any sequence of callbacks the number grows by exactly the number of emissions, and the i-th emission uses the starting number plus i |
| Desktop.EmissionsNeverCollide | main.py:379-394 | no two emissions of a session share a PDF or CSV file name |
| Web.Start | webapp.py:11-27 | a new session has an empty ledger and no download offer, and the settings loaded over the defaults |
| Web.Rerun | webapp.py:207-233 | each page run reloads the settings, then takes the language, the payment term and the description from the widgets |
| Web.RerunOfOwnSaveKeepsNumber | webapp.py:186-204 | reloading the session's own last save keeps its invoice number |
| Web.AddLineButton | webapp.py:245-247 | a line is added only with a description and non-zero quantity and price |
| Web.HandleInvoiceGeneration | webapp.py:263-296 | without lines it reports and changes nothing; the number changes exactly on completion, and then by one; the download offer appears once the PDF is written, and the offered document is the rendered one even when the CSV write then fails; the ledger is never cleared; language, term and description never change, so the saved settings differ from the session's only in the number; the emitted document is the one rendered with the given invoice name as title |
| Web.GenerateInvoiceButton | webapp.py:301-305 | an empty recipient is refused with no change |
| Web.ContinueButton | webapp.py:326-331 | while a download is offered, withdraws the offer and clears the ledger; afterwards no offer is shown |
| Web.ClearAllButton | webapp.py:341-344 | only the ledger is cleared |
| Web.GenerateTestDataButton | webapp.py:346-349 | the ledger is replaced by exactly the four demonstration lines (totalling 92.50), and nothing else changes |
| Web.GenerateTestPdfButton | webapp.py:333-339 | the ledger is replaced by exactly the demonstration lines, and the document is the one rendered from them for "Test Customer" with no invoice name (so under the language's own title), the session's description and the current number, which does not advance |
| Web.RunCountsEmissions | webapp.py:293-296 | over any sequence of interactions the number grows by exactly the number of generations, and the i-th generation uses the starting number plus i |
| Web.EmissionsNeverCollide | webapp.py:272-291 | no two generations of a session share a PDF or CSV file name |

## Left out

- Document.Render — the web copy draws in the core font Helvetica, which cannot encode text
  outside Latin-1 (a recipient "Łukasz", a description with "€"); the source then raises inside
  `generate_pdf`. The model's `Render` succeeds there. The emission functions fold that failure
  into `Io.documentOk`, but `Render` itself does not promise it.
- Web.GenerateTestPdfButton — for the same reason, `generate_pdf` at webapp.py:336 raises when
  the session's description holds a character outside Latin-1; the model's "succeeds exactly
  for a known language" does not account for that, since this button has no write step to
  fold it into.
- The drawing itself is not modelled. This covers FPDF's fonts, colours, positions, the logo and
  the `:.2f` money formatting. A document is modelled by its content only (`Document.Doc`). A
  font that fails to load counts as a failed document write.
- The dearpygui widgets and Streamlit's widget plumbing are not modelled. The form is a record,
  and a callback reads and writes its fields.
- Floating point is not modelled. Quantities, prices and amounts are exact reals. The sum is
  taken in the render loop's order, but rounding is not modelled.
- The CSV bytes that pandas writes are not modelled. The export is modelled as a sequence of
  rows with the same columns.
- Dates are day numbers. `datetime.now()` is read twice in the source: once by the document and
  once by the export. The model uses one `today` for both, so an emission that spans midnight
  is not modelled. `strftime` is not modelled either.
- JSON parsing is not modelled. A present settings file is a `Stored` record whose keys may be
  missing. A malformed file, which raises in the source, is not modelled. Neither is a failing
  `save_config`.
- The clipboard import (main.py:199-210, webapp.py:351-363) is left out. It depends on
  pandas' clipboard parsing and on `float()` conversions of foreign text.
- `float()` of a non-numeric quantity is left out. It cannot arise from the numeric input
  widgets.
- `\w` is modelled as ASCII letters, digits and `_`. Python's Unicode-aware class also
  accepts non-ASCII letters and digits.
- The web page's base64 download link and its HTML are not modelled. Neither is `st.rerun`.
  `Web.Rerun` models the part of every page run that touches the session.
- `Web.Apply` (the `Edit` event) assumes that no other writer touched the settings file between
  page runs: not another browser session on the same server, not the desktop app, not a hand
  edit. Without that, a reload could move the invoice number, and `Web.EmissionsNeverCollide`
  does not cover sessions where that happens.
- The web page's payment-term minimum of 1 and its quantity and price minimum of 0
  (webapp.py:224, 241, 243) are constraints of the widgets; the desktop widgets have none. The
  model accepts any integer or real there.
- Dutch and English label texts are stated per key (`Locale.DutchText`, `Locale.EnglishText`).
  The payment-instruction sentences are copied as they are.

## Notes on the program's behaviour

- main.py:292 replaces each single space with `_`, not each run of whitespace. Tabs and other
  whitespace are deleted by the next step (main.py:293).
- webapp.py:263-296 never clears the ledger, even when generation succeeds. Only "Continue to
  next invoice" (webapp.py:326-331) does.
- The all-separator test at main.py:296 can never fire. After the strip on main.py:294, an
  all-separator name is already empty and caught by the emptiness test. `Filename.StripSeparators`
  states why: the stripped text is empty exactly when the input was all separators.

=== FILE: decimal.dfy ===
/** Python's `str(n)` for integers: the decimal text that invoice numbers take in file names. */
module Decimal {

  predicate IsDigit(c: char) {
    '0' <= c <= '9'
  }

  predicate AllDigits(s: string) {
    forall i :: 0 <= i < |s| ==> IsDigit(s[i])
  }

  function DigitChar(d: nat): (c: char)
    requires d < 10
    ensures IsDigit(c)
    ensures c as int - '0' as int == d
  {
    ('0' as int + d) as char
  }

  /** Decimal digits of `n`, most significant first, without leading zeros. */
  function NatToDecimal(n: nat): (s: string)
    ensures |s| >= 1
    ensures AllDigits(s)
    ensures |s| > 1 ==> s[0] != '0'
    decreases n
  {
    if n < 10 then [DigitChar(n)] else NatToDecimal(n / 10) + [DigitChar(n % 10)]
  }

  /** Python's `str(n)`: a minus sign before the digits of `|n|` for negative `n`. */
  function IntToDecimal(n: int): (s: string)
    ensures |s| >= 1
    ensures n >= 0 ==> AllDigits(s)
    ensures n < 0 ==> s[0] == '-' && AllDigits(s[1..])
    ensures '_' !in s
  {
    if n < 0 then "-" + NatToDecimal(-n) else NatToDecimal(n)
  }

  /** Reads a digit string back as a number (the inverse of `NatToDecimal`). */
  function ParseDigits(s: string): nat
    requires AllDigits(s)
  {
    if s == [] then 0
    else ParseDigits(s[..|s| - 1]) * 10 + (s[|s| - 1] as int - '0' as int)
  }

  lemma {:induction false} ParseNatToDecimal(n: nat)
    ensures ParseDigits(NatToDecimal(n)) == n
    decreases n
  {
    var s := NatToDecimal(n);
    if n >= 10 {
      ParseNatToDecimal(n / 10);
      assert s[..|s| - 1] == NatToDecimal(n / 10);
    }
  }

  /** Distinct naturals have distinct digit strings. */
  lemma NatToDecimalInjective(m: nat, n: nat)
    requires NatToDecimal(m) == NatToDecimal(n)
    ensures m == n
  {
    ParseNatToDecimal(m);
    ParseNatToDecimal(n);
  }

  /** Distinct invoice numbers have distinct decimal texts. */
  lemma IntToDecimalInjective(a: int, b: int)
    requires IntToDecimal(a) == IntToDecimal(b)
    ensures a == b
  {
    var s := IntToDecimal(a);
    if a < 0 && b < 0 {
      assert s[1..] == NatToDecimal(-a) == NatToDecimal(-b);
      NatToDecimalInjective(-a, -b);
    } else if a >= 0 && b >= 0 {
      NatToDecimalInjective(a, b);
    }
  }
}

=== FILE: desktop.dfy ===
/** The desktop front end: the invoice manager's state, the form fields the callbacks read and
    reset, and the state transitions behind each button. */
module Desktop {

  import opened Wrappers
  import opened Ledger
  import opened Filename
  import opened Locale
  import opened Document
  import opened Emission
  import opened Settings

  /** `InvoiceManager`: the ledger plus the persisted settings. */
  datatype Manager = Manager(lines: Lines, invoiceNumber: int, paymentTermsDays: int, language: string, description: string)

  /** The form fields: recipient, optional invoice name, invoice description and the inputs of
      the line being added. */
  datatype Form = Form(
    customerName: string, invoiceName: string, invoiceDescription: string,
    lineDescription: string, lineQuantity: real, linePrice: real)

  datatype Gui = Gui(manager: Manager, form: Form)

  /** Why the emission callback showed the error popup. */
  datatype Refusal = MissingRecipient | MissingDescription | NoLines

  datatype Outcome = Refused(why: Refusal) | Raised(fault: Fault) | Emitted(files: Files)

  /** The state after a callback, what it produced, and the settings it saved, if any. */
  datatype Step = Step(gui: Gui, outcome: Outcome, saved: Option<Config>)

  function ConfigOf(m: Manager): Config {
    Config(m.invoiceNumber, m.paymentTermsDays, m.language, m.description)
  }

  /** `InvoiceManager.__init__` followed by `load_config`, and the initial form. */
  function Start(file: Option<Stored>): (r: (Gui, Option<Stored>))
    ensures r.0.manager.lines == []
    ensures ConfigOf(r.0.manager) == Load(Defaults, file).0 && r.1 == Load(Defaults, file).1
    ensures r.0.form.invoiceDescription == r.0.manager.description
  {
    var (c, written) := Load(Defaults, file);
    var m := Manager([], c.invoiceNumber, c.paymentTermsDays, c.language, c.description);
    (Gui(m, Form("", "", m.description, "", 1.0, 0.0)), written)
  }

  /** The line inputs after they are cleared: empty description, quantity 1, price 0. */
  function ResetLineInputs(f: Form): Form {
    f.(lineDescription := "", lineQuantity := 1.0, linePrice := 0.0)
  }

  /** `add_line_callback`: adds the line only when the description is non-empty and quantity and
      price are non-zero, then clears the line inputs; otherwise nothing changes. */
  function AddLineCallback(g: Gui): (r: Gui)
    ensures var f := g.form;
      if f.lineDescription != "" && f.lineQuantity != 0.0 && f.linePrice != 0.0 then
        && |r.manager.lines| == |g.manager.lines| + 1
        && r.manager.lines[..|g.manager.lines|] == g.manager.lines
        && r.manager.lines[|g.manager.lines|] == Line(f.lineDescription, f.lineQuantity, f.linePrice, Amount(f.lineQuantity, f.linePrice))
        && r.manager.(lines := g.manager.lines) == g.manager
        && r.form == ResetLineInputs(f)
      else r == g
  {
    var f := g.form;
    if f.lineDescription != "" && f.lineQuantity != 0.0 && f.linePrice != 0.0 then
      var (lines, _) := AddLine(g.manager.lines, f.lineDescription, f.lineQuantity, f.linePrice);
      Gui(g.manager.(lines := lines), ResetLineInputs(f))
    else g
  }

  /** `delete_line_callback`: the row's delete button removes that line; a stale index is ignored. */
  function DeleteLineCallback(g: Gui, index: int): (r: Gui)
    ensures !(0 <= index < |g.manager.lines|) ==> r == g
    ensures 0 <= index < |g.manager.lines| ==> |r.manager.lines| == |g.manager.lines| - 1
    ensures 0 <= index < |g.manager.lines| ==>
      && (forall k :: 0 <= k < index ==> r.manager.lines[k] == g.manager.lines[k])
      && (forall k :: index <= k < |r.manager.lines| ==> r.manager.lines[k] == g.manager.lines[k + 1])
    ensures r.manager.(lines := g.manager.lines) == g.manager && r.form == g.form
  {
    g.(manager := g.manager.(lines := RemoveLine(g.manager.lines, index)))
  }

  /** `clear_all_callback`: clears the ledger, the recipient, the invoice name and the line
      inputs, and keeps the invoice description. */
  function ClearAllCallback(g: Gui): (r: Gui)
    ensures r.manager.lines == []
    ensures r.manager.(lines := g.manager.lines) == g.manager
    ensures r.form.customerName == "" && r.form.invoiceName == ""
    ensures r.form.invoiceDescription == g.form.invoiceDescription
    ensures r.form.lineDescription == "" && r.form.lineQuantity == 1.0 && r.form.linePrice == 0.0
  {
    Gui(g.manager.(lines := ClearLines(g.manager.lines)),
        ResetLineInputs(g.form).(customerName := "", invoiceName := ""))
  }

  /** `generate_test_data_callback`: the four demonstration lines and the demonstration recipient. */
  function GenerateTestDataCallback(g: Gui): (r: Gui)
    ensures |r.manager.lines| == 4 && AllPriced(r.manager.lines)
    ensures Total(r.manager.lines) == 92.50
    ensures r.form.customerName == "Test Customer"
    ensures r.manager.(lines := g.manager.lines) == g.manager
    ensures r.manager.lines == GenerateTestData(g.manager.lines).0
    ensures r.form == g.form.(customerName := TestCustomer)
  {
    var (lines, customer) := GenerateTestData(g.manager.lines);
    TestDataTotal(g.manager.lines);
    Gui(g.manager.(lines := lines), g.form.(customerName := customer))
  }

  /** `update_language`: selects the language and saves the settings. */
  function UpdateLanguage(g: Gui, choice: string): (r: (Gui, Config))
    ensures r.0.manager.language in Languages
    ensures r.0.manager.language == "nl" <==> choice == "Dutch"
    ensures r.0.manager.(language := g.manager.language) == g.manager && r.0.form == g.form
    ensures r.1 == ConfigOf(r.0.manager)
  {
    var m := g.manager.(language := LanguageOfChoice(choice));
    (g.(manager := m), ConfigOf(m))
  }

  /** `update_payment_terms`: sets the payment term and saves the settings. */
  function UpdatePaymentTerms(g: Gui, days: int): (r: (Gui, Config))
    ensures r.0.manager.paymentTermsDays == days
    ensures r.0.manager.(paymentTermsDays := g.manager.paymentTermsDays) == g.manager && r.0.form == g.form
    ensures r.1 == ConfigOf(r.0.manager)
  {
    var m := g.manager.(paymentTermsDays := days);
    (g.(manager := m), ConfigOf(m))
  }

  /** `generate_invoice_callback`. Refuses (changing nothing) without a recipient, a description
      or a line. Otherwise it creates the output directory, copies the form's description into
      the manager, renders and writes `{n}_{safe}.pdf`, writes `{n}_{safe}.csv`, and only then
      advances the invoice number by one, saves the settings and clears the ledger and the line
      inputs. A step that raises leaves the number and the ledger as they were. */
  function GenerateInvoiceCallback(g: Gui, io: Io, today: int): (r: Step)
    ensures var f := g.form; var m := g.manager;
      && (r.outcome.Refused? <==> (f.customerName == "" || f.invoiceDescription == "" || m.lines == []))
      && (r.outcome.Refused? ==> r.gui == g && r.saved.None?)
      && (r.outcome.Emitted? <==>
            (!r.outcome.Refused? && io.directoryOk && m.language in Languages && io.documentOk && io.tableOk))
      && (r.outcome.Raised? ==>
            && r.gui.form == f && r.saved.None?
            && r.gui.manager.(description := m.description) == m
            && r.gui.manager.description == (if io.directoryOk then f.invoiceDescription else m.description))
      && (r.gui.manager.invoiceNumber != m.invoiceNumber <==> r.outcome.Emitted?)
      && (r.outcome.Emitted? ==>
            var n := m.invoiceNumber;
            var safe := Sanitize(f.customerName);
            var files := r.outcome.files;
            && r.gui.manager.invoiceNumber == n + 1
            && r.gui.manager.lines == []
            && r.gui.manager.description == f.invoiceDescription
            && r.gui.manager.paymentTermsDays == m.paymentTermsDays && r.gui.manager.language == m.language
            && r.saved == Some(ConfigOf(r.gui.manager))
            && files.invoiceNumber == n && files.safeName == safe
            && files.document.invoiceNumber == n
            && files.document.customer == f.customerName
            && files.document.description == f.invoiceDescription
            && |files.document.rows| == |m.lines|
            && (forall i :: 0 <= i < |m.lines| ==> files.document.rows[i].line == m.lines[i])
            && files.document.total == Total(m.lines)
            && Render(Desktop, m.language, m.lines, f.customerName, f.invoiceName, n, f.invoiceDescription,
                      today, m.paymentTermsDays) == Success(files.document)
            && files.table == Export(m.lines, n, f.customerName, today)
            && r.gui.form == ResetLineInputs(f))
  {
    var m := g.manager;
    var f := g.form;
    if f.customerName == "" then Step(g, Refused(MissingRecipient), None)
    else if f.invoiceDescription == "" then Step(g, Refused(MissingDescription), None)
    else if m.lines == [] then Step(g, Refused(NoLines), None)
    else if !io.directoryOk then Step(g, Raised(DirectoryFailed), None)
    else
      var n := m.invoiceNumber;
      var safe := Sanitize(f.customerName);
      var m1 := m.(description := f.invoiceDescription);
      var g1 := g.(manager := m1);
      match Render(Desktop, m1.language, m1.lines, f.customerName, f.invoiceName, n, m1.description, today, m1.paymentTermsDays)
      case Failure(e) => Step(g1, Raised(RenderFailed(e)), None)
      case Success(doc) =>
        if !io.documentOk then Step(g1, Raised(DocumentWriteFailed), None)
        else if !io.tableOk then Step(g1, Raised(TableWriteFailed), None)
        else
          var m2 := m1.(invoiceNumber := n + 1, lines := ClearLines(m1.lines));
          var files := Files(n, safe, doc, Export(m1.lines, n, f.customerName, today));
          Step(Gui(m2, ResetLineInputs(f)), Emitted(files), Some(ConfigOf(m2)))
  }

  const TestInvoiceName: string := "Test Invoice"

  /** `generate_test_pdf_callback`: loads the demonstration data into the ledger and the form,
      emits it without validation under `{n}_{safe}_TEST.pdf` and `.csv` with the title
      "Test Invoice", advances the number by one and clears the whole form. A step that raises
      leaves the number unchanged and the demonstration data in place. */
  function GenerateTestPdfCallback(g: Gui, io: Io, today: int): (r: Step)
    ensures !r.outcome.Refused?
    ensures r.outcome.Emitted? <==> io.directoryOk && g.manager.language in Languages && io.documentOk && io.tableOk
    ensures r.gui.manager.invoiceNumber != g.manager.invoiceNumber <==> r.outcome.Emitted?
    ensures r.outcome.Raised? ==> |r.gui.manager.lines| == 4 && r.saved.None?
    ensures r.outcome.Raised? ==>
      r.gui == Gui(g.manager.(lines := GenerateTestData(g.manager.lines).0),
                   g.form.(customerName := TestCustomer, invoiceName := TestInvoiceName))
    ensures r.outcome.Emitted? ==>
      var n := g.manager.invoiceNumber;
      var files := r.outcome.files;
      && r.gui.manager.invoiceNumber == n + 1
      && r.gui.manager.lines == []
      && r.gui.form.customerName == "" && r.gui.form.invoiceName == ""
      && r.gui.manager.(invoiceNumber := g.manager.invoiceNumber, lines := g.manager.lines) == g.manager
      && r.gui.form == ResetLineInputs(g.form).(customerName := "", invoiceName := "")
      && r.saved == Some(ConfigOf(r.gui.manager))
      && files.invoiceNumber == n && files.safeName == Sanitize(TestCustomer) + "_TEST"
      && files.document.invoiceNumber == n
      && files.document.title == TestInvoiceName
      && |files.document.rows| == 4 && |files.table| == 4
      && files.document.total == 92.50
      && Render(Desktop, g.manager.language, GenerateTestData(g.manager.lines).0, TestCustomer, TestInvoiceName,
                n, g.manager.description, today, g.manager.paymentTermsDays) == Success(files.document)
      && files.table == Export(GenerateTestData(g.manager.lines).0, n, TestCustomer, today)
  {
    var (lines, customer) := GenerateTestData(g.manager.lines);
    TestDataTotal(g.manager.lines);
    var m := g.manager.(lines := lines);
    var f := g.form.(customerName := customer, invoiceName := TestInvoiceName);
    var g1 := Gui(m, f);
    var n := m.invoiceNumber;
    var safe := Sanitize(customer);
    var title := if f.invoiceName != "" then f.invoiceName else TestInvoiceName;
    if !io.directoryOk then Step(g1, Raised(DirectoryFailed), None)
    else
      match Render(Desktop, m.language, m.lines, customer, title, n, m.description, today, m.paymentTermsDays)
      case Failure(e) => Step(g1, Raised(RenderFailed(e)), None)
      case Success(doc) =>
        if !io.documentOk then Step(g1, Raised(DocumentWriteFailed), None)
        else if !io.tableOk then Step(g1, Raised(TableWriteFailed), None)
        else
          var m2 := m.(invoiceNumber := n + 1);
          var files := Files(n, safe + "_TEST", doc, Export(m.lines, n, customer, today));
          var cleared := ClearAllCallback(Gui(m2, f));
          Step(cleared, Emitted(files), Some(ConfigOf(m2)))
  }

  /** One user action on the desktop window. `Type` stands for any editing of the form fields. */
  datatype Event =
    | Type(form: Form)
    | AddLinePressed
    | DeletePressed(index: int)
    | ClearAllPressed
    | TestDataPressed
    | LanguageChosen(choice: string)
    | TermsEntered(days: int)
    | GeneratePressed(io: Io, today: int)
    | TestPdfPressed(io: Io, today: int)

  /** The state after one action and the files it emitted, if any. */
  function Apply(g: Gui, e: Event): (Gui, Option<Files>) {
    match e
    case Type(form) => (g.(form := form), None)
    case AddLinePressed => (AddLineCallback(g), None)
    case DeletePressed(index) => (DeleteLineCallback(g, index), None)
    case ClearAllPressed => (ClearAllCallback(g), None)
    case TestDataPressed => (GenerateTestDataCallback(g), None)
    case LanguageChosen(choice) => (UpdateLanguage(g, choice).0, None)
    case TermsEntered(days) => (UpdatePaymentTerms(g, days).0, None)
    case GeneratePressed(io, today) => EmittedBy(GenerateInvoiceCallback(g, io, today))
    case TestPdfPressed(io, today) => EmittedBy(GenerateTestPdfCallback(g, io, today))
  }

  function EmittedBy(s: Step): (Gui, Option<Files>) {
    (s.gui, if s.outcome.Emitted? then Some(s.outcome.files) else None)
  }

  /** The final state of a session and the files emitted along the way, in order. */
  function Run(g: Gui, events: seq<Event>): (Gui, seq<Files>)
    decreases |events|
  {
    if events == [] then (g, [])
    else
      var (g1, out) := Apply(g, events[0]);
      var (last, files) := Run(g1, events[1..]);
      (last, (if out.Some? then [out.value] else []) + files)
  }

  /** Each action either emits under the current number and advances it by one, or emits
      nothing and keeps the number. */
  lemma ApplyAdvancesOnEmission(g: Gui, e: Event)
    ensures var (g1, out) := Apply(g, e);
      && (out.None? ==> g1.manager.invoiceNumber == g.manager.invoiceNumber)
      && (out.Some? ==> g1.manager.invoiceNumber == g.manager.invoiceNumber + 1 && out.value.invoiceNumber == g.manager.invoiceNumber)
  {
  }

  /** Over a whole session the invoice number grows by exactly the number of emissions, and the
      i-th emission is numbered `start + i`. */
  lemma {:induction false} RunCountsEmissions(g: Gui, events: seq<Event>)
    ensures var (last, files) := Run(g, events);
      last.manager.invoiceNumber == g.manager.invoiceNumber + |files| && NumberedFrom(files, g.manager.invoiceNumber)
    decreases |events|
  {
    if events != [] {
      var (g1, out) := Apply(g, events[0]);
      ApplyAdvancesOnEmission(g, events[0]);
      RunCountsEmissions(g1, events[1..]);
      var rest := Run(g1, events[1..]).1;
      NumberedFromPrepend(if out.Some? then [out.value] else [], rest, g.manager.invoiceNumber);
    }
  }

  /** No emission in a session overwrites the files of an earlier one: every PDF name and CSV
      name is distinct from every other emitted name. */
  lemma EmissionsNeverCollide(g: Gui, events: seq<Event>)
    ensures var files := Run(g, events).1;
      forall i, j :: 0 <= i < j < |files| ==>
        && files[i].PdfFile() != files[j].PdfFile() && files[i].CsvFile() != files[j].CsvFile()
        && files[i].PdfFile() != files[j].CsvFile() && files[i].CsvFile() != files[j].PdfFile()
  {
    RunCountsEmissions(g, events);
    NumberedFilesDistinct(Run(g, events).1, g.manager.invoiceNumber);
  }
}

=== FILE: document.dfy ===
/** What the rendered invoice and the exported table contain, without their layout: the title,
    the header details, one table row per ledger line with alternate shading, the total, and the
    row-per-line export with invoice number, customer and date repeated on every row. */
module Document {

  import opened Wrappers
  import opened Ledger
  import opened Locale

  /** A table row of the document: the line it shows and whether its background is shaded. */
  datatype Row = Row(line: Line, shaded: bool)

  /** The content of the rendered document. Days are day numbers; the `YYYY-MM-DD` text is not
      modelled. */
  datatype Doc = Doc(
    title: string,
    invoiceNumber: int,
    issueDay: int,
    dueDay: int,
    customer: string,
    labels: map<Key, string>,
    organisation: seq<(string, string)>,
    rows: seq<Row>,
    total: real,
    description: string)

  /** `translations[language]` raised a `KeyError`. */
  datatype RenderError = UnknownLanguage(language: string)

  /** `fill = i % 2 == 1`: the alternate-row shading rule. */
  predicate Shaded(i: nat) {
    i % 2 == 1
  }

  /** `invoice_name or trans['invoice']`: the invoice name when it is non-empty, the table's
      title otherwise. */
  function Title(invoiceName: string, labels: map<Key, string>): string
    requires InvoiceTitle in labels
  {
    if invoiceName != "" then invoiceName else labels[InvoiceTitle]
  }

  /** The table rows, built in ledger order as the render loop does: row `i` shows line `i`
      and is shaded exactly when `i` is odd. */
  function TableRows(lines: Lines): (rows: seq<Row>)
    ensures |rows| == |lines|
    ensures forall i :: 0 <= i < |lines| ==> rows[i].line == lines[i]
    ensures forall i :: 0 <= i < |lines| ==> (rows[i].shaded <==> i % 2 == 1)
  {
    if lines == [] then []
    else TableRows(lines[..|lines| - 1]) + [Row(lines[|lines| - 1], Shaded(|lines| - 1))]
  }

  /** The fixed organisation block at the top right. The web copy has no "Name" entry. */
  function Organisation(front: FrontEnd): seq<(string, string)>
  {
    (if front == Desktop then [("Name", "DSSV ELS")] else []) + [
      ("Web", "www.effelekkerschaatsen.com"),
      ("Address", "Mekelweg 8 2628CD Delft"),
      ("Mail", "penningmeester@dssvels.com"),
      ("IBAN", "NL51 ABNA 0552 4048 45"),
      ("KVK nr", "27183125")
    ]
  }

  /** Both copies list the same five entries in the same order; the desktop copy puts the
      organisation's name in front of them. */
  lemma OrganisationBlocks()
    ensures |Organisation(Web)| == 5
    ensures Organisation(Desktop) == [("Name", "DSSV ELS")] + Organisation(Web)
  {
  }

  /** `generate_pdf` without the drawing: fails only when the language has no table; otherwise
      the title follows the fallback rule, the due day lies `paymentTermsDays` after the issue
      day, the rows show the ledger in order with odd rows shaded, and the total is the ledger
      total. */
  function Render(front: FrontEnd, language: string, lines: Lines, customer: string, invoiceName: string,
                  invoiceNumber: int, description: string, today: int, paymentTermsDays: int): (r: Result<Doc, RenderError>)
    ensures r.Success? <==> language in Languages
    ensures r.Failure? ==> r.error == UnknownLanguage(language)
    ensures r.Success? ==> r.value.labels == Translations(front, language).value
    ensures r.Success? ==> (invoiceName != "" ==> r.value.title == invoiceName)
    ensures r.Success? ==> (invoiceName == "" ==> r.value.title == r.value.labels[InvoiceTitle])
    ensures r.Success? ==> r.value.invoiceNumber == invoiceNumber && r.value.customer == customer
    ensures r.Success? ==> r.value.issueDay == today && r.value.dueDay == today + paymentTermsDays
    ensures r.Success? ==> |r.value.rows| == |lines|
    ensures r.Success? ==> forall i :: 0 <= i < |lines| ==> r.value.rows[i].line == lines[i]
    ensures r.Success? ==> forall i :: 0 <= i < |lines| ==> (r.value.rows[i].shaded <==> i % 2 == 1)
    ensures r.Success? ==> r.value.total == Total(lines)
    ensures r.Success? ==> r.value.description == description
  {
    match Translations(front, language)
    case None => Failure(UnknownLanguage(language))
    case Some(labels) =>
      Success(Doc(
        Title(invoiceName, labels),
        invoiceNumber,
        today,
        today + paymentTermsDays,
        customer,
        labels,
        Organisation(front),
        TableRows(lines),
        Total(lines),
        description))
  }

  /** The title of a rendered document is never empty. */
  lemma TitleNeverEmpty(front: FrontEnd, language: string, lines: Lines, customer: string, invoiceName: string,
                        invoiceNumber: int, description: string, today: int, paymentTermsDays: int)
    requires language in Languages
    ensures Render(front, language, lines, customer, invoiceName, invoiceNumber, description, today, paymentTermsDays).value.title != ""
  {
  }

  /** Rendering the same invoice in the other language changes only the labels and, when no
      invoice name is given, the title; numbers, days, rows and total are identical. */
  lemma LocaleSwitch(front: FrontEnd, lines: Lines, customer: string, invoiceName: string,
                     invoiceNumber: int, description: string, today: int, paymentTermsDays: int)
    ensures var nl := Render(front, "nl", lines, customer, invoiceName, invoiceNumber, description, today, paymentTermsDays);
            var en := Render(front, "en", lines, customer, invoiceName, invoiceNumber, description, today, paymentTermsDays);
            && nl.Success? && en.Success?
            && nl.value.(labels := en.value.labels, title := en.value.title) == en.value
            && (invoiceName != "" ==> nl.value.title == en.value.title)
  {
  }

  /** The web copy of `generate_pdf` renders the same invoice as the desktop copy: the same
      title, numbers, days, rows, total and description; only the label table (its Dutch price
      label) and the organisation block differ. */
  lemma FrontEndsRenderAlike(language: string, lines: Lines, customer: string, invoiceName: string,
                             invoiceNumber: int, description: string, today: int, paymentTermsDays: int)
    requires language in Languages
    ensures var d := Render(Desktop, language, lines, customer, invoiceName, invoiceNumber, description, today, paymentTermsDays);
            var w := Render(Web, language, lines, customer, invoiceName, invoiceNumber, description, today, paymentTermsDays);
            && d.Success? && w.Success?
            && d.value.title == w.value.title
            && d.value.(labels := w.value.labels, organisation := w.value.organisation) == w.value
  {
    FrontEndsShareLabels(language, InvoiceTitle);
  }

  /** One exported table row: the line's fields followed by the invoice number, the customer and
      the export day, in the source's column order. */
  datatype CsvRow = CsvRow(
    description: string, quantity: real, price: real, amount: real,
    invoiceNumber: int, customerName: string, date: int)

  /** `save_to_csv` without the file format: one row per ledger line, in ledger order. */
  function Export(lines: Lines, invoiceNumber: int, customer: string, today: int): (rows: seq<CsvRow>)
    ensures |rows| == |lines|
    ensures forall i :: 0 <= i < |rows| ==>
      rows[i].invoiceNumber == invoiceNumber && rows[i].customerName == customer && rows[i].date == today
  {
    seq(|lines|, i requires 0 <= i < |lines| =>
      CsvRow(lines[i].description, lines[i].quantity, lines[i].price, lines[i].amount, invoiceNumber, customer, today))
  }

  /** Reading an exported table back as ledger lines. */
  function Import(rows: seq<CsvRow>): (lines: Lines)
    ensures |lines| == |rows|
  {
    seq(|rows|, i requires 0 <= i < |rows| => Line(rows[i].description, rows[i].quantity, rows[i].price, rows[i].amount))
  }

  /** Exporting and reading back gives the ledger unchanged; when every amount was fixed at
      insertion, every exported row's amount is its quantity times its price. */
  lemma ExportRoundTrip(lines: Lines, invoiceNumber: int, customer: string, today: int)
    ensures Import(Export(lines, invoiceNumber, customer, today)) == lines
    ensures AllPriced(lines) ==> forall i :: 0 <= i < |lines| ==>
      var row := Export(lines, invoiceNumber, customer, today)[i];
      row.amount == Amount(row.quantity, row.price)
  {
    var rows := Export(lines, invoiceNumber, customer, today);
    assert forall i :: 0 <= i < |lines| ==> Import(rows)[i] == lines[i];
  }
}

=== FILE: emission.dfy ===
/** What one successful invoice emission produces, and the file names it writes under:
    `{n}_{safe}.pdf` and `{n}_{safe}.csv` in the output directory. */
module Emission {

  import opened Decimal
  import opened Document

  /** The outcomes of the emission's I/O steps: creating the output directory, producing and
      writing the document (fonts included), and writing the table. */
  datatype Io = Io(directoryOk: bool, documentOk: bool, tableOk: bool)

  /** Why an emission raised instead of completing. */
  datatype Fault = DirectoryFailed | RenderFailed(error: RenderError) | DocumentWriteFailed | TableWriteFailed

  /** The files of one completed emission: the number and sanitised recipient they are named
      after, and what they contain. */
  datatype Files = Files(invoiceNumber: int, safeName: string, document: Doc, table: seq<CsvRow>)
  {
    function PdfFile(): string { PdfName(invoiceNumber, safeName) }
    function CsvFile(): string { CsvName(invoiceNumber, safeName) }
  }

  /** The shared stem of both file names: the invoice number, `_`, the sanitised recipient. */
  function Stem(invoiceNumber: int, safeName: string): string
  {
    IntToDecimal(invoiceNumber) + "_" + safeName
  }

  function PdfName(invoiceNumber: int, safeName: string): string
  {
    Stem(invoiceNumber, safeName) + ".pdf"
  }

  function CsvName(invoiceNumber: int, safeName: string): string
  {
    Stem(invoiceNumber, safeName) + ".csv"
  }

  /** The position of the first `_` in `x`, or `|x|` when there is none. */
  function FirstUnderscore(x: string): (k: nat)
    ensures k <= |x|
  {
    if x == [] then 0 else if x[0] == '_' then 0 else 1 + FirstUnderscore(x[1..])
  }

  lemma {:induction false} FirstUnderscoreAfter(d: string, rest: string)
    requires '_' !in d
    ensures FirstUnderscore(d + "_" + rest) == |d|
    decreases |d|
  {
    if d != [] {
      assert (d + "_" + rest)[1..] == d[1..] + "_" + rest;
      FirstUnderscoreAfter(d[1..], rest);
    }
  }

  /** The stem determines both the invoice number and the sanitised name: the decimal text of a
      number holds no `_`, so the first `_` of a stem ends the number. */
  lemma StemInjective(n1: int, s1: string, n2: int, s2: string)
    requires Stem(n1, s1) == Stem(n2, s2)
    ensures n1 == n2 && s1 == s2
  {
    var d1 := IntToDecimal(n1);
    var d2 := IntToDecimal(n2);
    var st := Stem(n1, s1);
    FirstUnderscoreAfter(d1, s1);
    FirstUnderscoreAfter(d2, s2);
    assert d1 == st[..|d1|] == d2;
    IntToDecimalInjective(n1, n2);
    assert s1 == st[|d1| + 1..] == s2;
  }

  /** Emissions under different invoice numbers never write to the same file, and the document
      and table of one emission never share a name. */
  lemma DistinctNumbersDistinctFiles(n1: int, s1: string, n2: int, s2: string)
    ensures n1 != n2 ==> PdfName(n1, s1) != PdfName(n2, s2) && CsvName(n1, s1) != CsvName(n2, s2)
    ensures PdfName(n1, s1) != CsvName(n2, s2)
  {
    if Stem(n1, s1) == Stem(n2, s2) {
      StemInjective(n1, s1, n2, s2);
    }
    if |Stem(n1, s1)| == |Stem(n2, s2)| {
      var k := |Stem(n1, s1)|;
      assert PdfName(n1, s1)[..k] == Stem(n1, s1) && PdfName(n2, s2)[..k] == Stem(n2, s2);
      assert CsvName(n1, s1)[..k] == Stem(n1, s1) && CsvName(n2, s2)[..k] == Stem(n2, s2);
    }
    var pdf, csv := PdfName(n1, s1), CsvName(n2, s2);
    assert pdf[|pdf| - 2] == 'd' && csv[|csv| - 2] == 's';
  }

  /** The emissions of a session, in order, carry consecutive invoice numbers from `n`. */
  predicate NumberedFrom(files: seq<Files>, n: int) {
    forall i :: 0 <= i < |files| ==> files[i].invoiceNumber == n + i
  }

  /** An emission under `n` followed by emissions numbered from `n + 1` (or no emission followed
      by emissions numbered from `n`) are numbered from `n`. */
  lemma NumberedFromPrepend(head: seq<Files>, rest: seq<Files>, n: int)
    requires |head| <= 1
    requires head != [] ==> head[0].invoiceNumber == n
    requires NumberedFrom(rest, n + |head|)
    ensures NumberedFrom(head + rest, n)
  {
    var files := head + rest;
    forall i | 0 <= i < |files|
      ensures files[i].invoiceNumber == n + i
    {
      if i >= |head| {
        assert files[i] == rest[i - |head|];
      }
    }
  }

  /** Consecutively numbered emissions write pairwise distinct files. */
  lemma NumberedFilesDistinct(files: seq<Files>, n: int)
    requires NumberedFrom(files, n)
    ensures forall i, j :: 0 <= i < j < |files| ==>
      && files[i].PdfFile() != files[j].PdfFile() && files[i].CsvFile() != files[j].CsvFile()
      && files[i].PdfFile() != files[j].CsvFile() && files[i].CsvFile() != files[j].PdfFile()
  {
    forall i, j | 0 <= i < j < |files|
      ensures && files[i].PdfFile() != files[j].PdfFile() && files[i].CsvFile() != files[j].CsvFile()
              && files[i].PdfFile() != files[j].CsvFile() && files[i].CsvFile() != files[j].PdfFile()
    {
      var fi, fj := files[i], files[j];
      DistinctNumbersDistinctFiles(fi.invoiceNumber, fi.safeName, fj.invoiceNumber, fj.safeName);
      DistinctNumbersDistinctFiles(fj.invoiceNumber, fj.safeName, fi.invoiceNumber, fi.safeName);
    }
  }
}

=== FILE: filename.dfy ===
/** The two filename sanitisers: the desktop front end's `sanitize_filename`, which deletes and
    trims, and the web front end's substitution, which replaces every disallowed character by `_`.
    Both keep the characters of the regular-expression class `[\w._-]`. */
module Filename {

  /** The regular-expression class `\w`, restricted to ASCII: letters, digits and `_`. */
  predicate IsWordChar(c: char) {
    ('a' <= c <= 'z') || ('A' <= c <= 'Z') || ('0' <= c <= '9') || c == '_'
  }

  /** A character that survives both sanitisers: `\w`, `.`, `_` or `-`. */
  predicate IsFilenameChar(c: char) {
    IsWordChar(c) || c == '.' || c == '-'
  }

  /** The characters the desktop sanitiser trims from both ends. */
  predicate IsSeparator(c: char) {
    c == '_' || c == '-' || c == '.'
  }

  /** A letter or digit: the characters that carry a name's content. */
  predicate IsAlnum(c: char) {
    IsWordChar(c) && c != '_'
  }

  predicate AllSeparators(s: string) {
    forall i :: 0 <= i < |s| ==> IsSeparator(s[i])
  }

  predicate AllFilenameChars(s: string) {
    forall i :: 0 <= i < |s| ==> IsFilenameChar(s[i])
  }

  /** The letters and digits of `s`, in order. */
  function Alnums(s: string): string
  {
    if s == [] then [] else (if IsAlnum(s[0]) then [s[0]] else []) + Alnums(s[1..])
  }

  const Untitled: string := "untitled"
  const SanitizedRecipient: string := "sanitized_recipient"

  // ---------------------------------------------------------------------------
  // Desktop sanitiser, step by step

  /** `str.replace(" ", "_")`: every single space becomes one underscore. */
  function ReplaceSpaces(s: string): (r: string)
    ensures |r| == |s|
    ensures forall i :: 0 <= i < |s| ==> r[i] == (if s[i] == ' ' then '_' else s[i])
  {
    seq(|s|, i requires 0 <= i < |s| => if s[i] == ' ' then '_' else s[i])
  }

  /** `re.sub(r'[^\w\._-]', '', s)`: deletes every character outside the class. */
  function RemoveDisallowed(s: string): (r: string)
    ensures AllFilenameChars(r)
    ensures |r| <= |s|
    ensures AllFilenameChars(s) ==> r == s
  {
    if s == [] then []
    else (if IsFilenameChar(s[0]) then [s[0]] else []) + RemoveDisallowed(s[1..])
  }

  /** `str.lstrip('_-.')`: drops the leading separators. */
  function StripLeft(s: string): (r: string)
    ensures |r| <= |s|
    ensures r == s[|s| - |r|..]
    ensures forall k :: 0 <= k < |s| - |r| ==> IsSeparator(s[k])
    ensures r == [] || !IsSeparator(r[0])
  {
    if |s| > 0 && IsSeparator(s[0]) then StripLeft(s[1..]) else s
  }

  /** `str.rstrip('_-.')`: drops the trailing separators. */
  function StripRight(s: string): (r: string)
    ensures |r| <= |s|
    ensures r == s[..|r|]
    ensures forall k :: |r| <= k < |s| ==> IsSeparator(s[k])
    ensures r == [] || !IsSeparator(r[|r| - 1])
  {
    if |s| > 0 && IsSeparator(s[|s| - 1]) then StripRight(s[..|s| - 1]) else s
  }

  /** `str.strip('_-.')`: the longest infix that neither starts nor ends with a separator;
      it is empty exactly when `s` holds nothing but separators. */
  function StripSeparators(s: string): (r: string)
    ensures r == [] || (!IsSeparator(r[0]) && !IsSeparator(r[|r| - 1]))
    ensures r == [] <==> AllSeparators(s)
    ensures AllFilenameChars(s) ==> AllFilenameChars(r)
  {
    var l := StripLeft(s);
    var r := StripRight(l);
    StripKeeps(s, l, r);
    r
  }

  /** The strip is the infix of `s` that starts after its leading separators. */
  lemma {:induction false} StripIsInfix(s: string)
    ensures var r := StripSeparators(s); var i := |s| - |StripLeft(s)|;
      i + |r| <= |s| && r == s[i..i + |r|]
  {
    var l := StripLeft(s);
    var r := StripRight(l);
    PrefixOfSuffix(s, l, r);
  }

  /** Everything the strip drops, before and after that infix, is a separator. */
  lemma {:induction false} StripDropsOnlySeparators(s: string)
    ensures var r := StripSeparators(s); var i := |s| - |StripLeft(s)|;
      && (forall k :: 0 <= k < i ==> IsSeparator(s[k]))
      && (forall k :: i + |r| <= k < |s| ==> IsSeparator(s[k]))
  {
    var l := StripLeft(s);
    var r := StripRight(l);
    PrefixOfSuffix(s, l, r);
  }

  /** A prefix `r` of a suffix `l` of `s` is the infix of `s` that starts where `l` does, and
      what follows it in `l` is what follows it in `s`. */
  lemma {:induction false} PrefixOfSuffix(s: string, l: string, r: string)
    requires |l| <= |s| && l == s[|s| - |l|..]
    requires |r| <= |l| && r == l[..|r|]
    requires forall k :: |r| <= k < |l| ==> IsSeparator(l[k])
    ensures r == s[|s| - |l|..|s| - |l| + |r|]
    ensures forall k :: |s| - |l| + |r| <= k < |s| ==> IsSeparator(s[k])
  {
    var i := |s| - |l|;
    forall k | i + |r| <= k < |s| ensures IsSeparator(s[k]) {
      assert s[k] == l[k - i];
    }
  }

  /** The strip is empty exactly for an all-separator `s`, and keeps the allowed character set. */
  lemma {:induction false} StripKeeps(s: string, l: string, r: string)
    requires l == StripLeft(s) && r == StripRight(l)
    ensures r == [] <==> AllSeparators(s)
    ensures AllFilenameChars(s) ==> AllFilenameChars(r)
  {
    var i := |s| - |l|;
    assert l == s[i..];
    if r == [] {
      forall k | 0 <= k < |s| ensures IsSeparator(s[k]) {
        if k >= i {
          assert s[k] == l[k - i];
        }
      }
    }
    if AllFilenameChars(s) {
      forall k | 0 <= k < |r| ensures IsFilenameChar(r[k]) {
        assert r[k] == l[k] == s[i + k];
      }
    }
  }

  /** The desktop front end's `sanitize_filename`. An empty name gives `"untitled"`; a name that
      sanitises to nothing but separators gives `"sanitized_recipient"`; otherwise the cleaned
      name. Every result is non-empty, uses only filename characters, and neither starts nor ends
      with a separator. */
  function Sanitize(s: string): (r: string)
    ensures s == "" ==> r == Untitled
    ensures r != ""
    ensures AllFilenameChars(r)
    ensures !IsSeparator(r[0]) && !IsSeparator(r[|r| - 1])
  {
    if s == "" then Untitled
    else
      var t := StripSeparators(RemoveDisallowed(ReplaceSpaces(s)));
      if t == "" || AllSeparators(t) then SanitizedRecipient else t
  }

  // ---------------------------------------------------------------------------
  // Web sanitiser

  /** The web front end's `re.sub(r'[^\w\-_.]', '_', name)`: same length, every disallowed
      character becomes `_`, every allowed one stays where it was. */
  function SafeName(s: string): (r: string)
    ensures |r| == |s|
    ensures AllFilenameChars(r)
    ensures forall i :: 0 <= i < |s| && IsFilenameChar(s[i]) ==> r[i] == s[i]
    ensures forall i :: 0 <= i < |s| && !IsFilenameChar(s[i]) ==> r[i] == '_'
  {
    seq(|s|, i requires 0 <= i < |s| => if IsFilenameChar(s[i]) then s[i] else '_')
  }

  // ---------------------------------------------------------------------------
  // Properties

  lemma {:induction false} AlnumsAppend(a: string, b: string)
    ensures Alnums(a + b) == Alnums(a) + Alnums(b)
    decreases |a|
  {
    if a == [] {
      assert a + b == b;
    } else {
      assert (a + b)[0] == a[0];
      assert (a + b)[1..] == a[1..] + b;
      AlnumsAppend(a[1..], b);
    }
  }

  lemma {:induction false} AlnumsReplaceSpaces(s: string)
    ensures Alnums(ReplaceSpaces(s)) == Alnums(s)
    decreases |s|
  {
    if s != [] {
      assert ReplaceSpaces(s)[1..] == ReplaceSpaces(s[1..]);
      AlnumsReplaceSpaces(s[1..]);
    }
  }

  lemma {:induction false} AlnumsRemoveDisallowed(s: string)
    ensures Alnums(RemoveDisallowed(s)) == Alnums(s)
    decreases |s|
  {
    if s != [] {
      var head := if IsFilenameChar(s[0]) then [s[0]] else [];
      AlnumsAppend(head, RemoveDisallowed(s[1..]));
      AlnumsRemoveDisallowed(s[1..]);
      if head != [] {
        assert head[1..] == [];
      }
    }
  }

  /** Deletion works character by character: the result for a concatenation is the
      concatenation of the results. */
  lemma {:induction false} RemoveDisallowedAppend(a: string, b: string)
    ensures RemoveDisallowed(a + b) == RemoveDisallowed(a) + RemoveDisallowed(b)
    decreases |a|
  {
    if a == [] {
      assert a + b == b;
    } else {
      var head := if IsFilenameChar(a[0]) then [a[0]] else [];
      assert (a + b)[0] == a[0];
      assert (a + b)[1..] == a[1..] + b;
      assert RemoveDisallowed(a + b) == head + RemoveDisallowed(a[1..] + b);
      RemoveDisallowedAppend(a[1..], b);
      assert RemoveDisallowed(a) == head + RemoveDisallowed(a[1..]);
    }
  }

  /** A single character is kept exactly when it is in the class, and deleted otherwise. */
  lemma RemoveDisallowedOne(c: char)
    ensures IsFilenameChar(c) ==> RemoveDisallowed([c]) == [c]
    ensures !IsFilenameChar(c) ==> RemoveDisallowed([c]) == []
  {
    assert [c][1..] == [];
  }

  lemma {:induction false} AlnumsStripLeft(s: string)
    ensures Alnums(StripLeft(s)) == Alnums(s)
    decreases |s|
  {
    if |s| > 0 && IsSeparator(s[0]) {
      assert !IsAlnum(s[0]);
      assert Alnums(s) == Alnums(s[1..]);
      AlnumsStripLeft(s[1..]);
    }
  }

  lemma {:induction false} AlnumsStripRight(s: string)
    ensures Alnums(StripRight(s)) == Alnums(s)
    decreases |s|
  {
    if |s| > 0 && IsSeparator(s[|s| - 1]) {
      var init := s[..|s| - 1];
      AlnumsStripRight(init);
      assert s == init + [s[|s| - 1]];
      AlnumsAppend(init, [s[|s| - 1]]);
      assert [s[|s| - 1]][1..] == [];
    }
  }

  /** A string of filename characters without letters or digits is all separators. */
  lemma {:induction false} NoAlnumsMeansSeparators(s: string)
    requires AllFilenameChars(s)
    requires Alnums(s) == []
    ensures AllSeparators(s)
    decreases |s|
  {
    if s != [] {
      assert !IsAlnum(s[0]);
      NoAlnumsMeansSeparators(s[1..]);
      forall k | 0 <= k < |s| ensures IsSeparator(s[k]) {
        if k > 0 {
          assert s[k] == s[1..][k - 1];
        }
      }
    }
  }

  /** The cleaned name, before the fallbacks, keeps exactly the letters and digits of the input. */
  lemma CleanKeepsAlphanumerics(s: string)
    ensures Alnums(StripSeparators(RemoveDisallowed(ReplaceSpaces(s)))) == Alnums(s)
  {
    var a := ReplaceSpaces(s);
    var b := RemoveDisallowed(a);
    AlnumsReplaceSpaces(s);
    AlnumsRemoveDisallowed(a);
    AlnumsStripLeft(b);
    AlnumsStripRight(StripLeft(b));
  }

  /** A name with at least one letter or digit keeps all of them, in order, through the desktop
      sanitiser. */
  lemma SanitizeKeepsAlphanumerics(s: string)
    requires Alnums(s) != []
    ensures Sanitize(s) == StripSeparators(RemoveDisallowed(ReplaceSpaces(s)))
    ensures Alnums(Sanitize(s)) == Alnums(s)
  {
    var t := StripSeparators(RemoveDisallowed(ReplaceSpaces(s)));
    CleanKeepsAlphanumerics(s);
    assert s != "";
    assert t != "";
    assert !AllSeparators(t) by {
      assert !IsSeparator(t[0]);
    }
  }

  /** A non-empty name without letters or digits (for instance `"..."`) falls back to
      `"sanitized_recipient"`. */
  lemma SanitizeFallsBack(s: string)
    requires s != ""
    requires Alnums(s) == []
    ensures Sanitize(s) == SanitizedRecipient
  {
    var b := RemoveDisallowed(ReplaceSpaces(s));
    AlnumsReplaceSpaces(s);
    AlnumsRemoveDisallowed(ReplaceSpaces(s));
    NoAlnumsMeansSeparators(b);
  }

  /** Sanitising a sanitised name changes nothing. */
  lemma SanitizeIdempotent(s: string)
    ensures Sanitize(Sanitize(s)) == Sanitize(s)
  {
    var r := Sanitize(s);
    assert ReplaceSpaces(r) == r by {
      forall i | 0 <= i < |r| ensures r[i] != ' ' {
        assert IsFilenameChar(r[i]);
      }
    }
    assert StripLeft(r) == r;
    assert StripRight(r) == r;
    assert !AllSeparators(r) by {
      assert !IsSeparator(r[0]);
    }
  }

  /** A string of filename characters holds no `/`, no `\\` and no space. */
  lemma FilenameCharsArePathSafe(x: string)
    requires AllFilenameChars(x)
    ensures '/' !in x && '\\' !in x && ' ' !in x
  {
    forall i | 0 <= i < |x| ensures x[i] != '/' && x[i] != '\\' && x[i] != ' ' {
      assert IsFilenameChar(x[i]);
    }
  }

  /** Sanitised names are safe single path components on common file systems: no `/`, no `\\`,
      no spaces, and the desktop form is never `.`, `..` or a hidden name. */
  lemma SanitizedNamesArePathComponents(s: string)
    ensures '/' !in Sanitize(s) && '\\' !in Sanitize(s) && ' ' !in Sanitize(s)
    ensures Sanitize(s)[0] != '.'
    ensures '/' !in SafeName(s) && '\\' !in SafeName(s) && ' ' !in SafeName(s)
  {
    FilenameCharsArePathSafe(Sanitize(s));
    FilenameCharsArePathSafe(SafeName(s));
  }

  /** The web substitution is idempotent and fixes exactly the names already made of
      filename characters. */
  lemma SafeNameIdempotent(s: string)
    ensures SafeName(SafeName(s)) == SafeName(s)
    ensures SafeName(s) == s <==> AllFilenameChars(s)
  {
  }

  lemma {:induction false} AlnumsSafeName(s: string)
    ensures Alnums(SafeName(s)) == Alnums(s)
    decreases |s|
  {
    if s != [] {
      assert SafeName(s)[1..] == SafeName(s[1..]);
      AlnumsSafeName(s[1..]);
    }
  }

  /** Both front ends keep the same letters and digits of a recipient name that has any. */
  lemma FrontEndsAgreeOnContent(s: string)
    requires Alnums(s) != []
    ensures Alnums(Sanitize(s)) == Alnums(SafeName(s)) == Alnums(s)
  {
    SanitizeKeepsAlphanumerics(s);
    AlnumsSafeName(s);
  }

  /** A name whose only disallowed characters are spaces, and which neither starts nor ends with
      a space or separator, is sanitised to itself with each space turned into `_`: inner
      separators survive (`"Jane Doe"` becomes `"Jane_Doe"`). */
  lemma SanitizeKeepsCleanName(s: string)
    requires s != ""
    requires forall i :: 0 <= i < |s| ==> s[i] == ' ' || IsFilenameChar(s[i])
    requires s[0] != ' ' && s[|s| - 1] != ' '
    requires !IsSeparator(s[0]) && !IsSeparator(s[|s| - 1])
    ensures Sanitize(s) == ReplaceSpaces(s)
  {
    var t := ReplaceSpaces(s);
    assert AllFilenameChars(t) by {
      forall i | 0 <= i < |t| ensures IsFilenameChar(t[i]) {
        assert t[i] == (if s[i] == ' ' then '_' else s[i]);
      }
    }
    assert !IsSeparator(t[0]) && !IsSeparator(t[|t| - 1]);
    assert StripLeft(t) == t;
    assert StripRight(t) == t;
    assert !AllSeparators(t);
  }

  /** Worked example: the demonstration recipient keeps its inner separator. */
  lemma SanitizeTestCustomerExample(s: string)
    requires s == "Test Customer"
    ensures Sanitize(s) == "Test_Customer"
  {
    assert |s| == 13 && s[4] == ' ';
    assert forall i :: 0 <= i < |s| ==> s[i] == ' ' || IsFilenameChar(s[i]);
    SanitizeKeepsCleanName(s);
    assert ReplaceSpaces(s) == "Test_Customer";
  }

  /** Worked example: a name made of separators only. */
  lemma SanitizeDotsExample()
    ensures Sanitize("...") == "sanitized_recipient"
  {
    assert Alnums("...") == [] by {
      assert "..."[1..] == "..";
      assert ".."[1..] == ".";
      assert "."[1..] == [];
    }
    SanitizeFallsBack("...");
  }
}

=== FILE: ledger.dfy ===
/** The invoice-line ledger shared by the desktop and the web front end:
    an ordered sequence of lines whose amount is fixed when the line is added. */
module Ledger {

  /** One invoice line. Money is exact (`real`); the source's floats are not modelled. */
  datatype Line = Line(description: string, quantity: real, price: real, amount: real)

  type Lines = seq<Line>

  /** The amount of a line: quantity times unit price. */
  function Amount(quantity: real, price: real): real {
    quantity * price
  }

  /** A line whose amount is the product fixed at insertion time. */
  predicate Priced(l: Line) {
    l.amount == Amount(l.quantity, l.price)
  }

  predicate AllPriced(lines: Lines) {
    forall i :: 0 <= i < |lines| ==> Priced(lines[i])
  }

  /** Appends one line and returns the ledger with the position of the new line. */
  function AddLine(lines: Lines, description: string, quantity: real, price: real): (r: (Lines, nat))
    ensures |r.0| == |lines| + 1
    ensures r.0[..|lines|] == lines
    ensures r.1 == |r.0| - 1
    ensures r.0[r.1] == Line(description, quantity, price, Amount(quantity, price))
    ensures AllPriced(lines) ==> AllPriced(r.0)
  {
    var added := lines + [Line(description, quantity, price, Amount(quantity, price))];
    (added, |added| - 1)
  }

  /** Python's `list.pop(index)` behind a bounds guard: an index outside `[0, len)` is ignored. */
  function RemoveLine(lines: Lines, index: int): (r: Lines)
    ensures !(0 <= index < |lines|) ==> r == lines
    ensures 0 <= index < |lines| ==> |r| == |lines| - 1
    ensures 0 <= index < |lines| ==> forall k :: 0 <= k < index ==> r[k] == lines[k]
    ensures 0 <= index < |lines| ==> forall k :: index <= k < |r| ==> r[k] == lines[k + 1]
    ensures AllPriced(lines) ==> AllPriced(r)
  {
    if 0 <= index < |lines| then lines[..index] + lines[index + 1..] else lines
  }

  /** Empties the ledger unconditionally. */
  function ClearLines(lines: Lines): (r: Lines)
    ensures |r| == 0
  {
    []
  }

  /** The rendered total: amounts accumulated in ledger order, starting from 0. */
  function Total(lines: Lines): real
  {
    if lines == [] then 0.0 else Total(lines[..|lines| - 1]) + lines[|lines| - 1].amount
  }

  /** An independent reference for the total: the sum of quantity times price of every line. */
  function PriceSum(lines: Lines): real
  {
    if lines == [] then 0.0 else Amount(lines[0].quantity, lines[0].price) + PriceSum(lines[1..])
  }

  lemma {:induction false} TotalAppend(a: Lines, b: Lines)
    ensures Total(a + b) == Total(a) + Total(b)
    decreases |b|
  {
    if b == [] {
      assert a + b == a;
    } else {
      var b' := b[..|b| - 1];
      assert (a + b)[..|a + b| - 1] == a + b';
      TotalAppend(a, b');
    }
  }

  lemma TotalEmpty()
    ensures Total([]) == 0.0
  {
  }

  /** Adding a line raises the total by exactly quantity times price. */
  lemma TotalAfterAdd(lines: Lines, description: string, quantity: real, price: real)
    ensures Total(AddLine(lines, description, quantity, price).0) == Total(lines) + Amount(quantity, price)
  {
    var r := AddLine(lines, description, quantity, price).0;
    assert r[..|r| - 1] == lines;
  }

  /** The total of a ledger with one line taken out of its middle. */
  lemma TotalWithout(pre: Lines, x: Line, post: Lines)
    ensures Total(pre + [x] + post) == Total(pre + post) + x.amount
  {
    TotalAppend(pre + [x], post);
    TotalAppend(pre, [x]);
    TotalAppend(pre, post);
    assert [x][..0] == [];
  }

  /** Removing an in-range line lowers the total by exactly that line's amount. */
  lemma TotalAfterRemove(lines: Lines, index: int)
    requires 0 <= index < |lines|
    ensures Total(RemoveLine(lines, index)) == Total(lines) - lines[index].amount
  {
    var pre, x, post := lines[..index], lines[index], lines[index + 1..];
    SplitAt(lines, index);
    TotalWithout(pre, x, post);
  }

  /** A ledger is the lines before `index`, the line at it and the lines after it; removing the
      line leaves the other two parts. */
  lemma SplitAt(lines: Lines, index: int)
    requires 0 <= index < |lines|
    ensures lines == lines[..index] + [lines[index]] + lines[index + 1..]
    ensures RemoveLine(lines, index) == lines[..index] + lines[index + 1..]
  {
  }

  lemma {:induction false} PriceSumAppend(a: Lines, b: Lines)
    ensures PriceSum(a + b) == PriceSum(a) + PriceSum(b)
    decreases |a|
  {
    if a == [] {
      assert a + b == b;
    } else {
      assert (a + b)[1..] == a[1..] + b;
      PriceSumAppend(a[1..], b);
    }
  }

  /** On a ledger whose every amount was fixed at insertion, the total is the sum of quantity times price. */
  lemma {:induction false} TotalIsPriceSum(lines: Lines)
    requires AllPriced(lines)
    ensures Total(lines) == PriceSum(lines)
    decreases |lines|
  {
    if lines != [] {
      var init := lines[..|lines| - 1];
      var last := lines[|lines| - 1];
      assert AllPriced(init) by {
        forall i | 0 <= i < |init| ensures Priced(init[i]) {
          assert init[i] == lines[i];
        }
      }
      TotalIsPriceSum(init);
      assert lines == init + [last];
      PriceSumAppend(init, [last]);
      assert [last][1..] == [];
      assert Priced(lines[|lines| - 1]);
    }
  }

  /** The edits a user can make to a ledger: add a line, delete a row, clear all. */
  datatype Edit = Add(description: string, quantity: real, price: real) | Remove(index: int) | Clear

  function ApplyEdit(lines: Lines, e: Edit): Lines
  {
    match e
    case Add(d, q, p) => AddLine(lines, d, q, p).0
    case Remove(i) => RemoveLine(lines, i)
    case Clear => ClearLines(lines)
  }

  function ApplyEdits(lines: Lines, edits: seq<Edit>): Lines
    decreases |edits|
  {
    if edits == [] then lines else ApplyEdits(ApplyEdit(lines, edits[0]), edits[1..])
  }

  /** After any sequence of adds, removes and clears starting from an empty ledger, the total
      is the sum of quantity times price over the surviving lines. */
  lemma {:induction false} EditsKeepTotalHonest(lines: Lines, edits: seq<Edit>)
    requires AllPriced(lines)
    ensures AllPriced(ApplyEdits(lines, edits))
    ensures Total(ApplyEdits(lines, edits)) == PriceSum(ApplyEdits(lines, edits))
    decreases |edits|
  {
    if edits == [] {
      TotalIsPriceSum(lines);
    } else {
      var next := ApplyEdit(lines, edits[0]);
      assert AllPriced(next);
      EditsKeepTotalHonest(next, edits[1..]);
    }
  }

  const TestCustomer: string := "Test Customer"

  /** Replaces the ledger with the four demonstration lines and names the demonstration customer. */
  function GenerateTestData(lines: Lines): (r: (Lines, string))
    ensures |r.0| == 4
    ensures r.0[0].amount == 25.00 && r.0[1].amount == 7.50
    ensures r.0[2].amount == 45.00 && r.0[3].amount == 15.00
    ensures AllPriced(r.0)
    ensures r.1 == "Test Customer"
  {
    var t0 := ClearLines(lines);
    var t1 := AddLine(t0, "Ice skating lesson (1 hour)", 1.0, 25.00).0;
    var t2 := AddLine(t1, "Skate rental", 1.0, 7.50).0;
    var t3 := AddLine(t2, "Training subscription (monthly)", 1.0, 45.00).0;
    var t := AddLine(t3, "Competition entry fee", 1.0, 15.00).0;
    (t, TestCustomer)
  }

  /** The demonstration ledger totals 92.50. */
  lemma TestDataTotal(lines: Lines)
    ensures Total(GenerateTestData(lines).0) == 92.50
  {
    var t := GenerateTestData(lines).0;
    assert t == t[..3] + [t[3]];
    assert t[..3] == t[..2] + [t[2]];
    assert t[..2] == t[..1] + [t[1]];
    assert t[..1] == [t[0]];
    TotalAppend(t[..3], [t[3]]);
    TotalAppend(t[..2], [t[2]]);
    TotalAppend(t[..1], [t[1]]);
    assert Total([t[0]]) == t[0].amount by { assert [t[0]][..0] == []; }
    assert Total([t[1]]) == t[1].amount by { assert [t[1]][..0] == []; }
    assert Total([t[2]]) == t[2].amount by { assert [t[2]][..0] == []; }
    assert Total([t[3]]) == t[3].amount by { assert [t[3]][..0] == []; }
  }
}

=== FILE: locale.dfy ===
/** The two-language label tables used on the rendered invoice. Each front end keeps its own
    copy; the copies differ only in the Dutch label of the price column. */
module Locale {

  import opened Wrappers

  /** Which front end's copy of the tables is meant. */
  datatype FrontEnd = Desktop | Web

  /** The keys of a language table (`'invoice'`, `'invoice_number'`, ... in the source). */
  datatype Key =
    | InvoiceTitle | InvoiceNumberLabel | DateLabel | CustomerLabel | DueDateLabel | DescriptionLabel
    | QuantityLabel | PriceLabel | AmountLabel | TotalLabel | PaymentInstructions

  /** The keys every language table defines. */
  const CatalogKeys: set<Key> := {
    InvoiceTitle, InvoiceNumberLabel, DateLabel, CustomerLabel, DueDateLabel, DescriptionLabel,
    QuantityLabel, PriceLabel, AmountLabel, TotalLabel, PaymentInstructions
  }

  const Languages: set<string> := {"nl", "en"}

  function DutchText(front: FrontEnd, key: Key): (text: string)
    ensures text != ""
  {
    match key
    case InvoiceTitle => "FACTUUR"
    case InvoiceNumberLabel => "Factuurnummer"
    case DateLabel => "Datum"
    case CustomerLabel => "Ontvanger"
    case DueDateLabel => "Vervaldatum"
    case DescriptionLabel => "Omschrijving"
    case QuantityLabel => "Aantal"
    case PriceLabel => if front == Desktop then "Stukprijs" else "Prijs"
    case AmountLabel => "Bedrag"
    case TotalLabel => "Totaal"
    case PaymentInstructions =>
      "Gelieve binnen de termijn over te maken op NL51 ABNA 0552 4048 45 t.n.v DSSV ELS en onder vermelding van het factuurnummer"
  }

  function EnglishText(key: Key): (text: string)
    ensures text != ""
  {
    match key
    case InvoiceTitle => "INVOICE"
    case InvoiceNumberLabel => "Invoice #"
    case DateLabel => "Date"
    case CustomerLabel => "Recipient"
    case DueDateLabel => "Due Date"
    case DescriptionLabel => "Description"
    case QuantityLabel => "Quantity"
    case PriceLabel => "Price"
    case AmountLabel => "Amount"
    case TotalLabel => "Total"
    case PaymentInstructions =>
      "Please transfer the amount within the payment term to NL51 ABNA 0552 4048 45 in name of DSSV ELS, stating the invoice number"
  }

  /** Every key of a table has a non-empty text. */
  predicate Complete(table: map<Key, string>) {
    table.Keys == CatalogKeys && forall k :: k in table ==> table[k] != ""
  }

  /** `translations[lang]`: the table of a known language, `None` where the source raises a
      `KeyError`. Both languages define exactly the same keys, each with a non-empty text. */
  function Translations(front: FrontEnd, lang: string): (t: Option<map<Key, string>>)
    ensures t.Some? <==> lang in Languages
    ensures t.Some? ==> Complete(t.value)
  {
    if lang == "nl" then Some(map k | k in CatalogKeys :: DutchText(front, k))
    else if lang == "en" then Some(map k | k in CatalogKeys :: EnglishText(k))
    else None
  }

  /** The two languages of a front end share one key set. */
  lemma LanguagesShareKeys(front: FrontEnd)
    ensures Translations(front, "nl").value.Keys == Translations(front, "en").value.Keys == CatalogKeys
  {
  }

  /** The copies of the two front ends differ only in the Dutch price label. */
  lemma FrontEndsShareLabels(lang: string, key: Key)
    requires lang in Languages
    requires !(lang == "nl" && key == PriceLabel)
    ensures Translations(Desktop, lang).value[key] == Translations(Web, lang).value[key]
  {
  }

  /** The one Dutch label the two front ends word differently: the unit price. */
  lemma DutchPriceLabels()
    ensures Translations(Desktop, "nl").value[PriceLabel] == "Stukprijs"
    ensures Translations(Web, "nl").value[PriceLabel] == "Prijs"
  {
  }

  /** The language selector of the settings panel: `"Dutch"` selects `nl`, anything else `en`. */
  function LanguageOfChoice(choice: string): (lang: string)
    ensures lang in Languages
    ensures lang == "nl" <==> choice == "Dutch"
  {
    if choice == "Dutch" then "nl" else "en"
  }
}

=== FILE: settings.dfy ===
/** The persisted settings: last-used invoice number, payment term, language and default
    description, stored as one JSON object and rewritten in full on every save. */
module Settings {

  import opened Wrappers

  datatype Config = Config(invoiceNumber: int, paymentTermsDays: int, language: string, description: string)

  const DefaultDescription: string := "Invoice for ice skating activities at DSSV ELS."

  /** The settings a fresh session starts from, before the configuration file is read. */
  const Defaults: Config := Config(1, 14, "nl", DefaultDescription)

  /** The stored JSON object; any key may be missing from a hand-edited file. */
  datatype Stored = Stored(
    lastInvoiceNumber: Option<int>,
    paymentTermsDays: Option<int>,
    language: Option<string>,
    description: Option<string>)

  /** `save_config`: writes every field. */
  function Save(c: Config): (s: Stored)
    ensures s.lastInvoiceNumber.Some? && s.paymentTermsDays.Some? && s.language.Some? && s.description.Some?
  {
    Stored(Some(c.invoiceNumber), Some(c.paymentTermsDays), Some(c.language), Some(c.description))
  }

  /** `load_config`: reads the file when it exists, taking a missing key from the constants 1, 14
      and `'nl'` (and the description from the current state); when the file is absent the current
      state is kept and written out. Returns the new state and what is written, if anything. */
  function Load(current: Config, file: Option<Stored>): (r: (Config, Option<Stored>))
    ensures file.None? ==> r.0 == current && r.1 == Some(Save(current))
    ensures file.Some? ==> r.1.None?
    ensures file.Some? ==> r.0.invoiceNumber == file.value.lastInvoiceNumber.GetOr(1)
    ensures file.Some? ==> r.0.paymentTermsDays == file.value.paymentTermsDays.GetOr(14)
    ensures file.Some? ==> r.0.language == file.value.language.GetOr("nl")
    ensures file.Some? ==> r.0.description == file.value.description.GetOr(current.description)
  {
    match file
    case None => (current, Some(Save(current)))
    case Some(s) =>
      (Config(
        s.lastInvoiceNumber.GetOr(1),
        s.paymentTermsDays.GetOr(14),
        s.language.GetOr("nl"),
        s.description.GetOr(current.description)), None)
  }

  /** The file that is on disk after a load. */
  function AfterLoad(file: Option<Stored>, written: Option<Stored>): Option<Stored>
  {
    if written.Some? then written else file
  }

  /** Loading what was saved restores the saved settings, whatever the current state. */
  lemma LoadSaveRoundTrip(current: Config, c: Config)
    ensures Load(current, Some(Save(c))).0 == c
  {
  }

  /** Loading twice without an intervening change gives the same state both times. */
  lemma LoadIdempotent(current: Config, file: Option<Stored>)
    ensures var (c1, w1) := Load(current, file);
            Load(c1, AfterLoad(file, w1)).0 == c1
  {
    var (c1, w1) := Load(current, file);
    if file.None? {
      LoadSaveRoundTrip(c1, current);
    }
  }
}

=== FILE: web.dfy ===
/** The web front end: the per-browser session state and what each button does to it. The page
    script runs top to bottom on every interaction; `Rerun` is the part of that run that
    reloads the settings and reads the sidebar and form widgets back into the session. */
module Web {

  import opened Wrappers
  import opened Ledger
  import opened Filename
  import opened Locale
  import opened Document
  import opened Emission
  import opened Settings

  /** The session state: the ledger, the settings, and the download offer left by the last
      emission. */
  datatype Session = Session(
    lines: Lines, invoiceNumber: int, paymentTermsDays: int, language: string, description: string,
    showDownload: bool, currentPdf: Option<Doc>, currentFilename: Option<string>)

  function ConfigOf(s: Session): Config {
    Config(s.invoiceNumber, s.paymentTermsDays, s.language, s.description)
  }

  function WithConfig(s: Session, c: Config): Session {
    s.(invoiceNumber := c.invoiceNumber, paymentTermsDays := c.paymentTermsDays, language := c.language, description := c.description)
  }

  /** A new session before the settings file is read: empty ledger, the default settings, no
      download offer. */
  const Fresh: Session := Session([], 1, 14, "nl", DefaultDescription, false, None, None)

  /** The first page run of a session: the fresh session with the settings file loaded over it.
      Returns the session and what was written to the settings file, if anything. */
  function Start(file: Option<Stored>): (r: (Session, Option<Stored>))
    ensures r.0.lines == [] && !r.0.showDownload && r.0.currentPdf.None? && r.0.currentFilename.None?
    ensures ConfigOf(r.0) == Load(Defaults, file).0 && r.1 == Load(Defaults, file).1
  {
    var (c, written) := Load(ConfigOf(Fresh), file);
    (WithConfig(Fresh, c), written)
  }

  /** The start of every page run: reload the settings file, then take the language, the payment
      term and the invoice description from the widgets. Returns the session and what was
      written to the settings file, if anything. */
  function Rerun(s: Session, file: Option<Stored>, choice: string, days: int, descriptionText: string): (r: (Session, Option<Stored>))
    ensures r.0.language == LanguageOfChoice(choice) && r.0.paymentTermsDays == days && r.0.description == descriptionText
    ensures r.0.invoiceNumber == Load(ConfigOf(s), file).0.invoiceNumber
    ensures r.0.lines == s.lines && r.0.showDownload == s.showDownload
    ensures r.0.currentPdf == s.currentPdf && r.0.currentFilename == s.currentFilename
    ensures r.1 == Load(ConfigOf(s), file).1
  {
    var (c, written) := Load(ConfigOf(s), file);
    (WithConfig(s, c).(language := LanguageOfChoice(choice), paymentTermsDays := days, description := descriptionText), written)
  }

  /** When the settings file holds what this session last saved, the reload at the start of a
      page run leaves the invoice number where the session had it. */
  lemma RerunOfOwnSaveKeepsNumber(s: Session, choice: string, days: int, descriptionText: string)
    ensures Rerun(s, Some(Save(ConfigOf(s))), choice, days, descriptionText).0.invoiceNumber == s.invoiceNumber
  {
    LoadSaveRoundTrip(ConfigOf(s), ConfigOf(s));
  }

  /** "Add Line": adds the line only when the description is non-empty and quantity and price
      are non-zero. */
  function AddLineButton(s: Session, description: string, quantity: real, price: real): (r: Session)
    ensures if description != "" && quantity != 0.0 && price != 0.0 then
        && |r.lines| == |s.lines| + 1 && r.lines[..|s.lines|] == s.lines
        && r.lines[|s.lines|] == Line(description, quantity, price, Amount(quantity, price))
        && r.(lines := s.lines) == s
      else r == s
  {
    if description != "" && quantity != 0.0 && price != 0.0 then
      s.(lines := AddLine(s.lines, description, quantity, price).0)
    else s
  }

  /** Why a generation attempt did not complete. */
  datatype Outcome = MissingRecipient | NoLines | Raised(fault: Fault) | Generated(files: Files)

  /** The session after a button, what it produced, and the settings it saved, if any. */
  datatype Step = Step(session: Session, outcome: Outcome, saved: Option<Config>)

  /** `handle_invoice_generation`. Without lines it reports the error and returns false. It then
      renders the document, creates the output directory and writes `{n}_{safe}.pdf`, where the
      recipient's disallowed characters become `_`; from that point the session offers the
      document for download. It then writes `{n}_{safe}.csv` and only then advances the number
      by one and saves the settings. It never clears the ledger. */
  function HandleInvoiceGeneration(s: Session, customer: string, invoiceName: string, io: Io, today: int): (r: Step)
    ensures !r.outcome.MissingRecipient?
    ensures r.outcome.NoLines? <==> s.lines == []
    ensures r.outcome.Generated? <==>
      s.lines != [] && s.language in Languages && io.directoryOk && io.documentOk && io.tableOk
    ensures r.session.lines == s.lines
    ensures ConfigOf(r.session).(invoiceNumber := s.invoiceNumber) == ConfigOf(s)
    ensures r.session.invoiceNumber != s.invoiceNumber <==> r.outcome.Generated?
    ensures !r.outcome.Generated? ==> r.saved.None?
    ensures (r.outcome.NoLines? || (r.outcome.Raised? && !r.outcome.fault.TableWriteFailed?)) ==> r.session == s
    ensures (r.outcome.Generated? || (r.outcome.Raised? && r.outcome.fault.TableWriteFailed?)) ==>
      && r.session.showDownload
      && r.session.currentFilename == Some(PdfName(s.invoiceNumber, SafeName(customer)))
      && r.session.currentPdf.Some?
      && r.session.currentPdf.value.invoiceNumber == s.invoiceNumber
      && r.session.currentPdf.value.customer == customer
      && r.session.currentPdf.value.description == s.description
      && r.session.currentPdf.value.total == Total(s.lines)
      && Render(Web, s.language, s.lines, customer, invoiceName, s.invoiceNumber, s.description, today,
                s.paymentTermsDays) == Success(r.session.currentPdf.value)
    ensures r.outcome.Generated? ==>
      var files := r.outcome.files;
      && r.session.invoiceNumber == s.invoiceNumber + 1
      && r.saved == Some(ConfigOf(r.session))
      && files.invoiceNumber == s.invoiceNumber && files.safeName == SafeName(customer)
      && Some(files.document) == r.session.currentPdf
      && files.table == Export(s.lines, s.invoiceNumber, customer, today)
      && Render(Web, s.language, s.lines, customer, invoiceName, s.invoiceNumber, s.description, today,
                s.paymentTermsDays) == Success(files.document)
  {
    if s.lines == [] then Step(s, NoLines, None)
    else
      var n := s.invoiceNumber;
      var safe := SafeName(customer);
      match Render(Web, s.language, s.lines, customer, invoiceName, n, s.description, today, s.paymentTermsDays)
      case Failure(e) => Step(s, Raised(RenderFailed(e)), None)
      case Success(doc) =>
        if !io.directoryOk then Step(s, Raised(DirectoryFailed), None)
        else if !io.documentOk then Step(s, Raised(DocumentWriteFailed), None)
        else
          var s1 := s.(currentPdf := Some(doc), currentFilename := Some(PdfName(n, safe)), showDownload := true);
          if !io.tableOk then Step(s1, Raised(TableWriteFailed), None)
          else
            var s2 := s1.(invoiceNumber := n + 1);
            Step(s2, Generated(Files(n, safe, doc, Export(s.lines, n, customer, today))), Some(ConfigOf(s2)))
  }

  /** "Generate Invoice": an empty recipient shows an error and changes nothing; otherwise the
      generation above runs. */
  function GenerateInvoiceButton(s: Session, customer: string, invoiceName: string, io: Io, today: int): (r: Step)
    ensures customer == "" ==> r == Step(s, MissingRecipient, None)
    ensures customer != "" ==> r == HandleInvoiceGeneration(s, customer, invoiceName, io, today)
  {
    if customer == "" then Step(s, MissingRecipient, None)
    else HandleInvoiceGeneration(s, customer, invoiceName, io, today)
  }

  /** Whether the download offer and its "Continue to next invoice" button are on the page. */
  predicate OffersDownload(s: Session) {
    s.showDownload && s.currentPdf.Some?
  }

  /** "Continue to next invoice": withdraws the download offer and clears the ledger. The
      button exists only while the offer is shown; otherwise nothing changes. */
  function ContinueButton(s: Session): (r: Session)
    ensures OffersDownload(s) ==>
      && r.lines == [] && !r.showDownload && r.currentPdf.None? && r.currentFilename.None?
      && ConfigOf(r) == ConfigOf(s)
    ensures !OffersDownload(s) ==> r == s
    ensures !OffersDownload(r)
  {
    if OffersDownload(s) then
      s.(showDownload := false, currentPdf := None, currentFilename := None, lines := ClearLines(s.lines))
    else s
  }

  /** "Clear All": clears the ledger and nothing else. */
  function ClearAllButton(s: Session): (r: Session)
    ensures r.lines == [] && r.(lines := s.lines) == s
  {
    s.(lines := ClearLines(s.lines))
  }

  /** "Generate Test Data": replaces the ledger by the demonstration lines. The recipient it
      returns lands in a page-local variable that the immediate rerun discards. */
  function GenerateTestDataButton(s: Session): (r: Session)
    ensures |r.lines| == 4 && AllPriced(r.lines) && Total(r.lines) == 92.50
    ensures r.lines == GenerateTestData(s.lines).0
    ensures r.(lines := s.lines) == s
  {
    TestDataTotal(s.lines);
    s.(lines := GenerateTestData(s.lines).0)
  }

  /** "Generate Test PDF": replaces the ledger by the demonstration lines and renders them for
      the demonstration recipient with no invoice name. The document is offered as a link only:
      no file is written, the number does not advance and nothing is saved. */
  function GenerateTestPdfButton(s: Session, today: int): (r: (Session, Result<Doc, RenderError>))
    ensures |r.0.lines| == 4 && Total(r.0.lines) == 92.50
    ensures r.0.(lines := s.lines) == s
    ensures r.0.lines == GenerateTestData(s.lines).0
    ensures r.1 == Render(Web, s.language, GenerateTestData(s.lines).0, TestCustomer, "", s.invoiceNumber,
                          s.description, today, s.paymentTermsDays)
    ensures r.1.Success? <==> s.language in Languages
    ensures r.1.Success? ==>
      && r.1.value.invoiceNumber == s.invoiceNumber
      && r.1.value.customer == TestCustomer
      && r.1.value.title == Translations(Web, s.language).value[InvoiceTitle]
      && r.1.value.total == 92.50
  {
    var (lines, customer) := GenerateTestData(s.lines);
    TestDataTotal(s.lines);
    var s1 := s.(lines := lines);
    (s1, Render(Web, s1.language, s1.lines, customer, "", s1.invoiceNumber, s1.description, today, s1.paymentTermsDays))
  }

  /** One interaction with the page. `Edit` is a page run in which the settings file holds what
      the session last saved and the widgets hold the given values. */
  datatype Event =
    | Edit(choice: string, days: int, descriptionText: string)
    | AddLinePressed(description: string, quantity: real, price: real)
    | GeneratePressed(customer: string, invoiceName: string, io: Io, today: int)
    | ContinuePressed
    | TestPdfPressed(today: int)
    | ClearAllPressed
    | TestDataPressed

  /** The session after one interaction and the files it wrote, if any. */
  function Apply(s: Session, e: Event): (Session, Option<Files>) {
    match e
    case Edit(choice, days, text) => (Rerun(s, Some(Save(ConfigOf(s))), choice, days, text).0, None)
    case AddLinePressed(d, q, p) => (AddLineButton(s, d, q, p), None)
    case GeneratePressed(customer, name, io, today) =>
      var r := GenerateInvoiceButton(s, customer, name, io, today);
      (r.session, if r.outcome.Generated? then Some(r.outcome.files) else None)
    case ContinuePressed => (ContinueButton(s), None)
    case TestPdfPressed(today) => (GenerateTestPdfButton(s, today).0, None)
    case ClearAllPressed => (ClearAllButton(s), None)
    case TestDataPressed => (GenerateTestDataButton(s), None)
  }

  /** The final session and the files written along the way, in order. */
  function Run(s: Session, events: seq<Event>): (Session, seq<Files>)
    decreases |events|
  {
    if events == [] then (s, [])
    else
      var (s1, out) := Apply(s, events[0]);
      var (last, files) := Run(s1, events[1..]);
      (last, (if out.Some? then [out.value] else []) + files)
  }

  /** Each interaction either writes files under the current number and advances it by one, or
      writes none and keeps the number. */
  lemma ApplyAdvancesOnEmission(s: Session, e: Event)
    ensures var (s1, out) := Apply(s, e);
      && (out.None? ==> s1.invoiceNumber == s.invoiceNumber)
      && (out.Some? ==> s1.invoiceNumber == s.invoiceNumber + 1 && out.value.invoiceNumber == s.invoiceNumber)
  {
    if e.Edit? {
      RerunOfOwnSaveKeepsNumber(s, e.choice, e.days, e.descriptionText);
    }
  }

  /** Over a whole session the number grows by exactly the number of generations, and the i-th
      generation is numbered `start + i`. */
  lemma {:induction false} RunCountsEmissions(s: Session, events: seq<Event>)
    ensures var (last, files) := Run(s, events);
      last.invoiceNumber == s.invoiceNumber + |files| && NumberedFrom(files, s.invoiceNumber)
    decreases |events|
  {
    if events != [] {
      var (s1, out) := Apply(s, events[0]);
      ApplyAdvancesOnEmission(s, events[0]);
      RunCountsEmissions(s1, events[1..]);
      var rest := Run(s1, events[1..]).1;
      NumberedFromPrepend(if out.Some? then [out.value] else [], rest, s.invoiceNumber);
    }
  }

  /** No emission in a session overwrites the files of an earlier one: every PDF name and CSV
      name is distinct from every other emitted name. */
  lemma EmissionsNeverCollide(s: Session, events: seq<Event>)
    ensures var files := Run(s, events).1;
      forall i, j :: 0 <= i < j < |files| ==>
        && files[i].PdfFile() != files[j].PdfFile() && files[i].CsvFile() != files[j].CsvFile()
        && files[i].PdfFile() != files[j].CsvFile() && files[i].CsvFile() != files[j].PdfFile()
  {
    RunCountsEmissions(s, events);
    NumberedFilesDistinct(Run(s, events).1, s.invoiceNumber);
  }
}

=== FILE: wrappers.dfy ===
/** Failure-carrying result types shared by the invoice model. */
module Wrappers {

  /** An optional value: a missing configuration key, a file that is absent. */
  datatype Option<+T> = None | Some(value: T) {

    /** The value when present, `default` otherwise (Python's `dict.get(key, default)`). */
    function GetOr(default: T): (r: T)
      ensures Some? ==> r == value
      ensures None? ==> r == default
    {
      match this
      case Some(v) => v
      case None => default
    }
  }

  /** A computation that either succeeds with a value or raises an error. */
  datatype Result<+R, +E> = Success(value: R) | Failure(error: E)
}
